=== FILE: README.md ===
# Resume/job matcher page scripts — a Dafny model of the card projection

The two page scripts of this front end send a resume (or a job description) to a remote
matching API and render the answer as HTML built with template strings. The only logic in
them that is not DOM wiring or `fetch` is:

- the **input guards**: the PDF upload check (type `application/pdf`, then at most 10 MiB;
  a refused file leaves the previous selection in place) and the "non-empty after `trim()`"
  checks on the location and the job description;
- the **card projection**: which sections of the resume-analysis panel, the job cards, the
  query summary and the resume cards appear, which fallback text replaces a missing field or
  an API placeholder ("No description available", "Unknown Location"), how skill lists are
  capped at ten with a "+N more" tag, how a candidate summary is cut at 300 characters plus
  "...", how lists are joined with ", ", and which values go through `escapeHtml`.

The model pulls every template out into a pure function from an optional-field record
(`Option` fields, `seq<string>` lists) to a view-model datatype whose optional sections are
`Option`s. Each interpolated text is tagged `Escaped(t)` (`${escapeHtml(t)}`) or `Raw(t)`
(`${t}`), so the escaping policy of each site is part of the view model (a resume card's
summary line holds its kept prefix as `Escaped` and a flag for the unescaped "..." after it); `Markup.Render`
gives the tag its meaning with the browser's serialiser as an opaque parameter.

Modules:

- `Wrappers` (wrappers.dfy): `Option` for fields the pages only test for truthiness, `Field`
  (missing, `null` or present) for fields a template prints as they are, `Result`.
- `Text` (text.dfy): `trim` with the ECMAScript white-space set, `join`, the 300-character
  cut, `capitalizeFirst`, decimal printing of integers with a reading-back function.
- `Markup` (markup.dfy): `Html`, JavaScript truthiness, `escapeHtml`, how `undefined`
  prints in a template, and `ShowsCapped`, the skill-capping rule both pages follow.
- `JobSearch` (job_search.dfy): script.js — upload, form events, submit, resume-analysis
  panel, job cards, job list, the whole response.
- `ResumeMatcher` (resume_matcher.dfy): resume-matcher.js — submit, query summary, resume
  cards, resume list.

Notes on what the code does:

- A job card's description is never truncated; only a candidate's summary is.
- On a resume card, the job-titles and companies sections are gated on the joined text being
  non-empty, so a list holding one empty string hides them. Education is gated on the list
  being non-empty.
- Not every interpolated string is escaped. The model records these sites as `Raw` and does
  not change them:
  - in script.js, the email, phone, experience level, skills and job titles of the analysis
    panel, a job card's formatted posted date, and its job link;
  - in resume-matcher.js, the resume link and the `mailto:` address of the Contact link.

  Numbers are interpolated without `escapeHtml` too: the match score on both pages, the
  count of jobs in script.js, and `total_found` and `search_time_ms` in the results block of
  resume-matcher.js (lines 117-118). The model types these as integers, so their text is a
  numeral.
- script.js prints the count of jobs as given: a response without `total_found` reads
  "undefined jobs found", and one with `"total_found": null` reads "null jobs found". The job
  link prints a missing or `null` URL the same way. resume-matcher.js falls back to 0 for the
  count.
- A response without `resume_summary` makes `displayResumeSummary` throw. `searchJobs`
  catches that and shows its generic error, so the projection is not total there.

## Model

| member | source | states |
|---|---|---|
| `JobSearch.ValidateAndSetFile` | script.js:76-92 | a non-PDF type is refused with the PDF message before the size is looked at, an oversized PDF with the size message, and both leave the selection unchanged; a file is accepted iff it is a PDF of at most 10·1024·1024 bytes, and then becomes the selection |
| `JobSearch.Step` | script.js:49-105 | a file becomes selected only by being the first of the chosen or dropped files and passing the upload check; a refused file and an empty file list leave the selection alone; removing clears the selection; an edit sets the location to its text and changes nothing else; only edits and reset change the location |
| `JobSearch.RunKeepsSelectionValid` | script.js:49-105 | over any sequence of file choices, drops, removals, resets and location edits, the selected file stays absent or an acceptable PDF |
| `JobSearch.SubmitJobSearch` | script.js:112-129 | no file errors before the location is examined; a location that is all white space errors; otherwise the request carries the selected file, the trimmed non-empty location and max_results "20" |
| `JobSearch.SubmittedRequestIsValid` | script.js:76-129 | from an empty selection, every request the form lets out carries a PDF of at most 10 MiB and a location with no surrounding white space |
| `JobSearch.SummarySkills` | script.js:208-218 | the skills block is present iff the list is present and non-empty; it counts all skills, shows the first min(len,10) verbatim in order, and has "+N more" iff len > 10 with N = len − 10, its text being "+", the numeral of N, " more" |
| `JobSearch.DisplayResumeSummary` | script.js:186-230 | each panel section is present iff its field is truthy (lists: non-empty); experience level is capitalised; job titles are joined with ", "; the panel's values are interpolated raw |
| `JobSearch.PhoneShownOnlyWithEmail` | script.js:193-199 | the phone line shows iff both email and phone are given, because it sits inside the email-gated contact block |
| `JobSearch.JobDescription` | script.js:252-254 | the card shows the record's description iff it is present, non-empty and not "No description available"; otherwise the fixed fallback sentence; the placeholder is never shown |
| `JobSearch.CreateJobCard` | script.js:250-299 | score defaults to 0; location shown iff truthy and not "Unknown Location"; keywords shown iff non-empty, all of them in order, escaped; employment type and date gated on presence, the date unescaped; the link prints the URL raw, "undefined" for a missing key and "null" for a `null` one |
| `JobSearch.JobCardHidesSentinels` | script.js:252-292 | neither API placeholder appears in the description and location fields; title, company, location, description, employment type and keywords are escaped, while the posted date and the link target are not |
| `JobSearch.DisplayJobs` | script.js:232-248 | the count line prints total_found as given ("undefined" when missing, "null" when null); a missing or empty job list gives the no-jobs panel, otherwise exactly one card per job in input order |
| `JobSearch.JobCountReadsBack` | script.js:232-248 | the count line ends in " jobs found" and its number reads back as total_found when one is sent; the cards are the same whatever total_found says |
| `JobSearch.DisplayResults` | script.js:150-184 | a response without resume_summary ends in the generic "Failed to search jobs: " error; otherwise the panel and the job list are both projected |
| `JobSearch.MissingSummaryDiscardsJobs` | script.js:150-184 | without a resume summary the outcome is the same error whatever jobs and count the response holds |
| `JobSearch.ThreeJobsInOrder` | script.js:232-260 | three jobs scored 95, 40, 10 give three cards in that order with those scores and "3 jobs found" |
| `Text.IsSpace` | script.js:120 | the white-space set of `trim`: space and TAB through CR are in it, no printable ASCII character is |
| `Text.TextStart` | script.js:120 | the length of the leading white space: every character before it is white space, the one at it is not |
| `Text.TextEnd` | script.js:120 | where the trailing white space begins: every character from it on is white space, the one before it is not |
| `Text.Trim` | script.js:120 | the result is no longer than the input and neither starts nor ends with white space |
| `Text.TrimIsInfix` | script.js:120 | the result is the infix of the input between its leading and trailing white space, and what is cut off on either side is all white space |
| `Text.TrimEmptyIff` | script.js:120-126 | a string trims to "" iff every character is white space |
| `Text.TrimIdempotent` | resume-matcher.js:38 | trimming twice is trimming once |
| `Text.Join` | script.js:223 | `join`: an empty list joins to "", a one-element list to that element |
| `Text.JoinEnds` | script.js:223 | a join starts with its first element and ends with its last |
| `Text.JoinLength` | script.js:223 | a join holds every element's characters plus one separator per gap |
| `Text.JoinEmptyIff` | resume-matcher.js:154-160 | with ", " as separator, a join is empty iff the list is empty or is one empty string |
| `Text.JoinFrom` | resume-matcher.js:155 | read from the offset of element k (the lengths of the elements before it plus one separator for each) to the end, a join is the join of the elements from k on |
| `Text.JoinElementAt` | resume-matcher.js:155 | every element sits unchanged in the join at its offset |
| `Text.JoinSeparatorAt` | resume-matcher.js:155-159 | right after every element but the last, the separator sits unchanged, so the elements are joined with exactly `sep` |
| `Text.Truncate` | resume-matcher.js:189 | the kept part is a prefix of the summary of length min(len,300), and the ellipsis follows iff the summary is longer than 300 |
| `Text.TruncateText` | resume-matcher.js:189 | a summary of at most 300 characters is shown unchanged; a longer one as its first 300 characters plus "..."; never longer than the limit plus the ellipsis |
| `Text.TruncateIdempotent` | resume-matcher.js:189 | cutting the shown text again reproduces it |
| `Text.ToUpperAscii` | script.js:333 | lower-case ASCII letters map to their upper case, everything else is kept |
| `Text.CapitalizeFirst` | script.js:331-334 | "" stays ""; otherwise same length, first character upper-cased, the rest unchanged |
| `Text.CapitalizeFirstIdempotent` | script.js:331-334 | capitalising twice is capitalising once; a capitalised string never starts with a lower-case ASCII letter |
| `Text.NatToDecimal` | resume-matcher.js:147 | the printed number is a non-empty string of digits without a leading zero |
| `Text.DecimalRoundTrip` | resume-matcher.js:147 | reading the printed numeral back gives the number |
| `Text.IntToDecimal` | resume-matcher.js:128 | a negative number prints as "-" followed by its magnitude, a non-negative one as its numeral |
| `Text.IntRoundTrip` | resume-matcher.js:128 | the printed integer, sign included, reads back as the integer |
| `Markup.Render` | script.js:324-329 | a raw site emits its text verbatim; an escaped site emits "" for an empty text and the browser's serialisation otherwise |
| `Markup.OrElse` | resume-matcher.js:166 | `v \|\| fallback`: the value when truthy, the fallback otherwise |
| `Markup.EscapeHtml` | script.js:324-329 | the site is escaped, and a truthy value is passed through to the serialiser |
| `Markup.EscapeHtmlFalsy` | script.js:325 | escapeHtml of an absent or empty value renders as "" whatever the serialiser does |
| `Markup.TemplateText` | script.js:292 | in a template, a missing key prints as "undefined", a `null` as "null", a string as itself |
| `Markup.TemplateNumber` | script.js:233 | in a template, a missing key prints as "undefined", a `null` as "null", a number as its decimal numeral |
| `Markup.Tags` | script.js:285-287 | one tag per string, same order, same text |
| `Markup.CappedAccountsForAll` | script.js:210-215 | under the capping rule, shown tags plus N of "+N more" equal the header count, and no more than the cap are shown |
| `Markup.MoreLabel` | script.js:215 | the tag reads "+", the numeral of N, " more" |
| `Markup.MoreLabelReadsBack` | resume-matcher.js:199 | the number in a "+N more" tag reads back as N |
| `Markup.MoreTagCountsRest` | script.js:215 | under the capping rule, a skills section's "+N more" text appears iff skills were left out, and its N reads back as how many |
| `Markup.WhenTruthy` | resume-matcher.js:169-180 | a `${v ? ... : ''}` section is present iff the value is truthy, and then holds exactly the value, escaped or verbatim as the site says |
| `ResumeMatcher.SubmitResumeSearch` | resume-matcher.js:35-46 | submit errors iff the description is all white space; otherwise the search gets the trimmed, non-empty text |
| `ResumeMatcher.DisplayJobDescriptionSummary` | resume-matcher.js:103-125 | the query line is search_query when truthy, else the submitted description, escaped; the results block appears iff total_found is non-zero, with search time defaulting to 0 |
| `ResumeMatcher.QueryLineShowsSubmittedText` | resume-matcher.js:38-112 | without an echoed query, the query line is the trimmed submitted text, never blank |
| `ResumeMatcher.ExperienceText` | resume-matcher.js:147 | "{n} years experience" for non-zero years, "Experience not specified" otherwise |
| `ResumeMatcher.CandidateSkills` | resume-matcher.js:149-202 | the skills block is present iff the list is present and non-empty; header counts all; min(len,10) escaped tags in order; "+N more" iff N = len − 10 > 0, so a negative remainder never renders, and its text is "+", the numeral of N, " more" |
| `ResumeMatcher.SkillCapsAgree` | resume-matcher.js:150-199 | the resume card caps skills exactly as the job page's analysis panel does, differing only in escaping |
| `ResumeMatcher.JoinedWhenNonEmpty` | resume-matcher.js:153-216 | titles/companies are joined with ", " and shown iff that text is non-empty, that is iff the list has two or more entries or one non-empty entry |
| `ResumeMatcher.CardSummary` | resume-matcher.js:189 | the summary line holds the first min(len,300) characters escaped, and the "..." flag iff the summary is longer than 300 |
| `ResumeMatcher.CreateResumeCard` | resume-matcher.js:145-254 | name defaults to "Unknown Candidate"; email, phone, summary, explanation, file name gated on truthiness and escaped; summary cut at 300, its kept part escaped; education shown iff non-empty; resume link iff resume_url, contact "mailto:" link iff email |
| `ResumeMatcher.CardSummaryIsTruncated` | resume-matcher.js:188-190 | a card's summary is unchanged up to 300 characters, else the first 300 plus "...", at most 303 characters |
| `ResumeMatcher.ActionLinksIndependent` | resume-matcher.js:232-245 | the contact link does not depend on resume_url, nor the resume link on the email |
| `ResumeMatcher.ResumeCountReadsBack` | resume-matcher.js:127-143 | the count line ends in " resumes found" and its number reads back as total_found, or 0 when missing; the cards are the same whatever total_found says |
| `ResumeMatcher.DisplayResumes` | resume-matcher.js:127-143 | the count defaults to 0 when total_found is missing; a missing or empty candidate list gives the no-results panel, otherwise one card per candidate in order |
| `ResumeMatcher.DisplayResults` | resume-matcher.js:92-139 | the query summary and the resume list agree on total_found: with a results block the count line shows its number, without one it shows 0; there is one card per candidate |

## Left out

- DOM access, event listeners, drag-over styling, section show/hide, `scrollIntoView` and the
  `setTimeout` loading animation: page wiring with no stateable behaviour. The file events are
  kept only as the selection changes they cause (`JobSearch.Step`).
- `fetch`, `FormData`, JSON parsing and the HTTP error paths of `searchJobs` and
  `searchResumes`: network I/O against an opaque remote service. Their request bodies appear
  as the values the submit guards return.
- `Math.round` of `match_score`: floating point. The score is modelled as an integer
  percentage; a missing score shows as 0.
- `formatDate` and `toLocaleString` of the timestamp: locale and date-library behaviour. The
  card keeps the raw date text; the search timestamp is not modelled.
- The character mapping of `escapeHtml`: it is the browser's `textContent` to `innerHTML`
  serialisation, a parameter of `Markup.Render`. Only its empty-input case is stated.
- Text.ToUpperAscii: covers ASCII only; the Unicode case mapping of `toUpperCase` (which can
  lengthen a string) is not modelled.
- Text.CapitalizeFirst: inherits the ASCII-only case mapping.
- Text.Truncate: counts Unicode scalar values, while `substring` and `length` count UTF-16
  code units, so texts with characters outside the Basic Multilingual Plane are cut
  differently.
- Text.Trim: works on Unicode scalar values; the white-space set is the ECMAScript one.
- The form's other inputs: only the selected file and the location are modelled. The reset
  event of `JobSearch.Step` is `resetForm` (script.js:316-322).
- Numbers are integers: fractional `experience_years`, `total_found` or `search_time_ms`, and
  `NaN`, are not modelled. `Text.IntToDecimal` works on unbounded integers, while JavaScript
  prints integers of 1e21 and above in exponent form and loses precision above 2^53.
- The page-wide error panel and the retry/reset of the error state: UI glue. The error texts
  are the `Failure` values of the guards.
- The employer resolution with `is_default`, `education_background`, and the cap of 8 used by
  the candidate-search view belong to a script that is not part of this model.
- Re-entrant submission while a request is in flight: neither script guards against it, and
  with `fetch` left out there is nothing in the model to guard.

=== FILE: job_search.dfy ===
/** The resume-to-jobs page (script.js): choosing a PDF, the submit guard, and the projection
    of the search response into the resume-analysis panel and the job cards. */
module JobSearch {
  import opened Wrappers
  import Text
  import opened Markup

  // ---------------------------------------------------------------------------------------
  // Upload

  /** A browser `File`, reduced to what the page reads of it. */
  datatype UploadFile = UploadFile(name: string, mimeType: string, size: nat)

  const PdfMimeType: string := "application/pdf"
  /** 10 MiB, in bytes. */
  const MaxFileSize: nat := 10 * 1024 * 1024

  const NotPdfMessage: string := "Please select a PDF file only."
  const TooLargeMessage: string := "File size must be less than 10MB."

  /** A file the upload check lets through. */
  predicate Acceptable(f: UploadFile) {
    f.mimeType == PdfMimeType && f.size <= MaxFileSize
  }

  /** The selected file after a choice, and the error shown if the choice was refused. */
  datatype FileChoice = FileChoice(selected: Option<UploadFile>, error: Option<string>)

  /** `validateAndSetFile`: the type is checked first, then the size; a refused file leaves the
      previous selection in place. */
  function ValidateAndSetFile(selected: Option<UploadFile>, file: UploadFile): (c: FileChoice)
    ensures file.mimeType != PdfMimeType ==> c == FileChoice(selected, Some(NotPdfMessage))
    ensures file.mimeType == PdfMimeType && file.size > MaxFileSize ==>
              c == FileChoice(selected, Some(TooLargeMessage))
    ensures c.error.None? <==> Acceptable(file)
    ensures c.error.None? ==> c.selected == Some(file)
  {
    if file.mimeType != PdfMimeType then FileChoice(selected, Some(NotPdfMessage))
    else if file.size > MaxFileSize then FileChoice(selected, Some(TooLargeMessage))
    else FileChoice(Some(file), None)
  }

  // ---------------------------------------------------------------------------------------
  // The search form

  const DefaultLocation: string := "Remote"
  const MaxResults: string := "20"
  const NoFileMessage: string := "Please select a PDF resume file."
  const NoLocationMessage: string := "Please select a location."

  /** The form's state: the module-level `selectedFile` and the location input's value. */
  datatype JobForm = JobForm(selected: Option<UploadFile>, location: string)

  /** What the user can do to the form. `ChooseFiles` is both the file input's change event and
      a drop, each carrying the file list they deliver. */
  datatype FormEvent =
    | ChooseFiles(files: seq<UploadFile>)
    | RemoveFile
    | ResetForm
    | EditLocation(text: string)

  /** One event: only the first of the chosen files is considered, and none is a no-op;
      `removeFile` clears the selection; `resetForm` also puts "Remote" back as the location. */
  function Step(form: JobForm, e: FormEvent): (f: JobForm)
    ensures f.selected.Some? ==>
              || f.selected == form.selected
              || (e.ChooseFiles? && |e.files| > 0 && f.selected == Some(e.files[0]) && Acceptable(e.files[0]))
    ensures e.ChooseFiles? && |e.files| > 0 && Acceptable(e.files[0]) ==> f.selected == Some(e.files[0])
    ensures e.ChooseFiles? && |e.files| > 0 && !Acceptable(e.files[0]) ==> f.selected == form.selected
    ensures e.ChooseFiles? && |e.files| == 0 ==> f == form
    ensures e.RemoveFile? ==> f.selected.None?
    ensures e.ResetForm? ==> f.selected.None? && f.location == DefaultLocation
    ensures !e.ResetForm? && !e.EditLocation? ==> f.location == form.location
    ensures e.EditLocation? ==> f == form.(location := e.text)
  {
    match e
    case ChooseFiles(files) =>
      if |files| > 0 then form.(selected := ValidateAndSetFile(form.selected, files[0]).selected)
      else form
    case RemoveFile => form.(selected := None)
    case ResetForm => JobForm(None, DefaultLocation)
    case EditLocation(text) => form.(location := text)
  }

  function Run(form: JobForm, events: seq<FormEvent>): JobForm
    decreases |events|
  {
    if |events| == 0 then form else Run(Step(form, events[0]), events[1..])
  }

  predicate ValidSelection(selected: Option<UploadFile>) {
    selected.None? || Acceptable(selected.value)
  }

  /** Whatever the user does, the selected file is either absent or a PDF of at most 10 MiB. */
  lemma {:induction false} RunKeepsSelectionValid(form: JobForm, events: seq<FormEvent>)
    requires ValidSelection(form.selected)
    ensures ValidSelection(Run(form, events).selected)
    decreases |events|
  {
    if |events| > 0 {
      var next := Step(form, events[0]);
      assert ValidSelection(next.selected);
      RunKeepsSelectionValid(next, events[1..]);
    }
  }

  /** The multipart body sent to the job-search endpoint. */
  datatype SearchRequest = SearchRequest(file: UploadFile, location: string, maxResults: string)

  /** `handleFormSubmit`: no file is reported before the location is looked at; a location that
      is blank after trimming is refused; otherwise the trimmed location goes out with
      max_results fixed to "20". */
  function SubmitJobSearch(form: JobForm): (r: Result<SearchRequest, string>)
    ensures form.selected.None? ==> r == Failure(NoFileMessage)
    ensures form.selected.Some? && Text.AllSpace(form.location) ==> r == Failure(NoLocationMessage)
    ensures r.Success? <==> form.selected.Some? && !Text.AllSpace(form.location)
    ensures r.Success? ==> r.value.file == form.selected.value
    ensures r.Success? ==> r.value.location == Text.Trim(form.location) && r.value.location != ""
    ensures r.Success? ==> r.value.maxResults == "20"
  {
    if form.selected.None? then Failure(NoFileMessage)
    else
      var location := Text.Trim(form.location);
      Text.TrimEmptyIff(form.location);
      if location == "" then Failure(NoLocationMessage)
      else Success(SearchRequest(form.selected.value, location, MaxResults))
  }

  /** Starting from an empty selection, every request the form sends carries an acceptable
      PDF and a location with no surrounding white space. */
  lemma SubmittedRequestIsValid(start: JobForm, events: seq<FormEvent>)
    requires start.selected.None?
    ensures var r := SubmitJobSearch(Run(start, events));
            r.Success? ==> Acceptable(r.value.file)
                           && !Text.IsSpace(r.value.location[0])
                           && !Text.IsSpace(r.value.location[|r.value.location| - 1])
  {
    RunKeepsSelectionValid(start, events);
  }

  // ---------------------------------------------------------------------------------------
  // Resume analysis panel

  datatype ResumeSummary = ResumeSummary(
    email: Option<string>,
    phone: Option<string>,
    experienceLevel: Option<string>,
    skills: Option<seq<string>>,
    jobTitles: Option<seq<string>>)

  /** The contact block; the phone line lives inside it. */
  datatype ContactSection = ContactSection(email: Html, phone: Option<Html>)

  datatype SummaryView = SummaryView(
    contact: Option<ContactSection>,
    experienceLevel: Option<Html>,
    skills: Option<SkillsSection>,
    jobTitles: Option<Html>)

  /** The "Key Skills" block of the analysis panel: tags are interpolated verbatim. */
  function SummarySkills(skills: Option<seq<string>>): (v: Option<SkillsSection>)
    ensures v.Some? <==> skills.Some? && |skills.value| > 0
    ensures v.Some? ==> ShowsCapped(v.value, skills.value, SkillDisplayLimit, false)
    ensures v.Some? ==>
              v.value.MoreTag() ==
              (if |skills.value| > SkillDisplayLimit then Some(MoreLabel(|skills.value| - SkillDisplayLimit)) else None)
  {
    if skills.Some? && |skills.value| > 0 then
      var s := skills.value;
      var more := if |s| > SkillDisplayLimit then Some(|s| - SkillDisplayLimit) else None;
      Some(SkillsSection(|s|, Tags(s[..Text.Min(|s|, SkillDisplayLimit)], false), more))
    else
      None
  }

  /** `displayResumeSummary`. Only the sections whose field is truthy appear; the email, phone,
      experience level, skills and job titles are interpolated without escaping. */
  function DisplayResumeSummary(s: ResumeSummary): (v: SummaryView)
    ensures v.contact.Some? <==> Truthy(s.email)
    ensures v.contact.Some? ==> v.contact.value.email == Raw(s.email.value)
    ensures v.contact.Some? ==> (v.contact.value.phone.Some? <==> Truthy(s.phone))
    ensures v.contact.Some? && v.contact.value.phone.Some? ==> v.contact.value.phone.value == Raw(s.phone.value)
    ensures v.experienceLevel.Some? <==> Truthy(s.experienceLevel)
    ensures v.experienceLevel.Some? ==>
              v.experienceLevel.value == Raw(Text.CapitalizeFirst(s.experienceLevel.value))
    ensures v.skills.Some? <==> s.skills.Some? && |s.skills.value| > 0
    ensures v.skills.Some? ==> ShowsCapped(v.skills.value, s.skills.value, SkillDisplayLimit, false)
    ensures v.jobTitles.Some? <==> s.jobTitles.Some? && |s.jobTitles.value| > 0
    ensures v.jobTitles.Some? ==> v.jobTitles.value == Raw(Text.Join(s.jobTitles.value, ", "))
  {
    SummaryView(
      if Truthy(s.email) then
        Some(ContactSection(Raw(s.email.value), if Truthy(s.phone) then Some(Raw(s.phone.value)) else None))
      else None,
      if Truthy(s.experienceLevel) then Some(Raw(Text.CapitalizeFirst(s.experienceLevel.value))) else None,
      SummarySkills(s.skills),
      if s.jobTitles.Some? && |s.jobTitles.value| > 0 then Some(Raw(Text.Join(s.jobTitles.value, ", "))) else None)
  }

  /** The phone line shows exactly when both an email and a phone are given: a phone without an
      email is never displayed. */
  lemma PhoneShownOnlyWithEmail(s: ResumeSummary)
    ensures var v := DisplayResumeSummary(s);
            (v.contact.Some? && v.contact.value.phone.Some?) <==> Truthy(s.email) && Truthy(s.phone)
  {
  }

  // ---------------------------------------------------------------------------------------
  // Job cards

  datatype JobRecord = JobRecord(
    title: Option<string>,
    company: Option<string>,
    location: Option<string>,
    description: Option<string>,
    employmentType: Option<string>,
    postedDate: Option<string>,
    matchScore: Option<int>,
    matchedKeywords: Option<seq<string>>,
    jobUrl: Field<string>)

  const NoDescriptionSentinel: string := "No description available"
  const UnknownLocationSentinel: string := "Unknown Location"
  const DescriptionFallback: string := "Job description not available. Click to view full details on LinkedIn."

  /** One job card. `postedDate` holds the date text handed to the date formatter; the
      formatted date is interpolated without escaping. */
  datatype JobCard = JobCard(
    title: Html,
    matchScore: int,
    company: Html,
    location: Option<Html>,
    description: Html,
    employmentType: Option<Html>,
    postedDate: Option<Html>,
    keywords: Option<seq<Html>>,
    jobLink: Html)

  /** The description a card shows: the record's own one unless it is missing, empty or the
      API's "No description available" placeholder, in which case a fixed sentence. */
  function JobDescription(d: Option<string>): (r: string)
    ensures (d.Some? && r == d.value) <==> Truthy(d) && d.value != NoDescriptionSentinel
    ensures !(Truthy(d) && d.value != NoDescriptionSentinel) ==> r == DescriptionFallback
    ensures r != "" && r != NoDescriptionSentinel
  {
    if Truthy(d) && d.value != NoDescriptionSentinel then d.value else DescriptionFallback
  }

  /** `createJobCard`. */
  function CreateJobCard(job: JobRecord): (c: JobCard)
    ensures c.title == EscapeHtml(job.title) && c.company == EscapeHtml(job.company)
    ensures job.matchScore.None? ==> c.matchScore == 0
    ensures job.matchScore.Some? ==> c.matchScore == job.matchScore.value
    ensures c.location.Some? <==> Truthy(job.location) && job.location.value != UnknownLocationSentinel
    ensures c.location.Some? ==> c.location.value == Escaped(job.location.value)
    ensures c.description == Escaped(JobDescription(job.description))
    ensures c.employmentType.Some? <==> Truthy(job.employmentType)
    ensures c.employmentType.Some? ==> c.employmentType.value == Escaped(job.employmentType.value)
    ensures c.postedDate.Some? <==> Truthy(job.postedDate)
    ensures c.postedDate.Some? ==> c.postedDate.value == Raw(job.postedDate.value)
    ensures c.keywords.Some? <==> job.matchedKeywords.Some? && |job.matchedKeywords.value| > 0
    ensures c.keywords.Some? ==> |c.keywords.value| == |job.matchedKeywords.value|
    ensures c.keywords.Some? ==> forall i :: 0 <= i < |c.keywords.value| ==>
              c.keywords.value[i] == Escaped(job.matchedKeywords.value[i])
    ensures c.jobLink == Raw(TemplateText(job.jobUrl))
  {
    JobCard(
      EscapeHtml(job.title),
      job.matchScore.GetOr(0),
      EscapeHtml(job.company),
      if Truthy(job.location) && job.location.value != UnknownLocationSentinel
      then Some(Escaped(job.location.value)) else None,
      Escaped(JobDescription(job.description)),
      if Truthy(job.employmentType) then Some(Escaped(job.employmentType.value)) else None,
      if Truthy(job.postedDate) then Some(Raw(job.postedDate.value)) else None,
      if job.matchedKeywords.Some? && |job.matchedKeywords.value| > 0
      then Some(Tags(job.matchedKeywords.value, true)) else None,
      Raw(TemplateText(job.jobUrl)))
  }

  /** Neither API placeholder is shown in the description or location field. Title, company,
      location, description, employment type and keywords go through `escapeHtml`; the posted
      date and the link target do not. */
  lemma JobCardHidesSentinels(job: JobRecord)
    ensures var c := CreateJobCard(job);
            && c.description.text != NoDescriptionSentinel
            && (c.location.Some? ==> c.location.value.text != UnknownLocationSentinel)
            && c.title.Escaped? && c.company.Escaped? && c.description.Escaped?
            && (c.location.Some? ==> c.location.value.Escaped?)
            && (c.employmentType.Some? ==> c.employmentType.value.Escaped?)
            && (c.keywords.Some? ==> forall i :: 0 <= i < |c.keywords.value| ==> c.keywords.value[i].Escaped?)
            && (c.postedDate.Some? ==> c.postedDate.value.Raw?)
            && c.jobLink.Raw?
  {
  }

  datatype JobsGrid = NoJobs | JobCards(cards: seq<JobCard>)

  datatype JobsView = JobsView(resultsCount: string, grid: JobsGrid)

  /** `displayJobs`: the count line prints `total_found` as given ("undefined" when the key is
      missing, "null" when it is `null`);
      a missing or empty job list gives the "No jobs found" panel, otherwise one card per job in
      the order received. */
  function DisplayJobs(jobs: Option<seq<JobRecord>>, totalFound: Field<int>): (v: JobsView)
    ensures v.resultsCount == TemplateNumber(totalFound) + " jobs found"
    ensures v.grid.NoJobs? <==> jobs.None? || |jobs.value| == 0
    ensures v.grid.JobCards? ==> |v.grid.cards| == |jobs.value|
    ensures v.grid.JobCards? ==> forall i :: 0 <= i < |v.grid.cards| ==>
              v.grid.cards[i] == CreateJobCard(jobs.value[i])
  {
    var count := TemplateNumber(totalFound) + " jobs found";
    if jobs.None? || |jobs.value| == 0 then JobsView(count, NoJobs)
    else
      var js := jobs.value;
      JobsView(count, JobCards(seq(|js|, i requires 0 <= i < |js| => CreateJobCard(js[i]))))
  }

  /** The count line reads back as `total_found` when the API sends a number; the cards do not
      depend on it: there is one per job whatever count the API reports. */
  lemma JobCountReadsBack(jobs: Option<seq<JobRecord>>, totalFound: Field<int>, other: Field<int>)
    ensures var c := DisplayJobs(jobs, totalFound).resultsCount;
            var k := |c| - |" jobs found"|;
            && 0 <= k
            && c[k..] == " jobs found"
            && (totalFound.Present? ==> Text.IsNumeral(c[..k]) && Text.NumeralValue(c[..k]) == totalFound.value)
    ensures DisplayJobs(jobs, totalFound).grid == DisplayJobs(jobs, other).grid
  {
    if totalFound.Present? {
      Text.IntRoundTrip(totalFound.value);
      var c := DisplayJobs(jobs, totalFound).resultsCount;
      assert c[..|c| - |" jobs found"|] == Text.IntToDecimal(totalFound.value);
    }
  }

  // ---------------------------------------------------------------------------------------
  // The whole response

  datatype JobSearchResponse = JobSearchResponse(
    resumeSummary: Option<ResumeSummary>,
    jobs: Option<seq<JobRecord>>,
    totalFound: Field<int>)

  datatype JobResults = JobResults(summary: SummaryView, jobs: JobsView)

  const SearchFailedPrefix: string := "Failed to search jobs: "

  /** `displayResults`, as reached from `searchJobs`. Reading a field of a missing
      `resume_summary` throws a TypeError, which `searchJobs` turns into its generic error
      message; `typeErrorMessage` is the browser's wording of that TypeError. */
  function DisplayResults(resp: JobSearchResponse, typeErrorMessage: string): (r: Result<JobResults, string>)
    ensures r.Failure? <==> resp.resumeSummary.None?
    ensures r.Failure? ==> r.error == SearchFailedPrefix + typeErrorMessage
    ensures r.Success? ==> r.value.summary == DisplayResumeSummary(resp.resumeSummary.value)
    ensures r.Success? ==> r.value.jobs == DisplayJobs(resp.jobs, resp.totalFound)
  {
    match resp.resumeSummary
    case None => Failure(SearchFailedPrefix + typeErrorMessage)
    case Some(s) => Success(JobResults(DisplayResumeSummary(s), DisplayJobs(resp.jobs, resp.totalFound)))
  }

  /** Three jobs scored 95, 40 and 10 come out as three cards, in that order, with those
      scores. */
  lemma ThreeJobsInOrder(a: JobRecord, b: JobRecord, c: JobRecord)
    requires a.matchScore == Some(95) && b.matchScore == Some(40) && c.matchScore == Some(10)
    ensures var v := DisplayJobs(Some([a, b, c]), Present(3));
            && v.resultsCount == "3 jobs found"
            && v.grid.JobCards?
            && |v.grid.cards| == 3
            && v.grid.cards[0].matchScore == 95
            && v.grid.cards[1].matchScore == 40
            && v.grid.cards[2].matchScore == 10
  {
    var v := DisplayJobs(Some([a, b, c]), Present(3));
    assert v.grid.cards[0] == CreateJobCard(a);
    assert v.grid.cards[1] == CreateJobCard(b);
    assert v.grid.cards[2] == CreateJobCard(c);
  }

  /** Without a resume summary nothing of the response is shown: the outcome is the same
      error whatever jobs and count came with it. */
  lemma MissingSummaryDiscardsJobs(resp: JobSearchResponse, other: JobSearchResponse, typeErrorMessage: string)
    requires resp.resumeSummary.None? && other.resumeSummary.None?
    ensures DisplayResults(resp, typeErrorMessage) == DisplayResults(other, typeErrorMessage)
    ensures DisplayResults(resp, typeErrorMessage).Failure?
  {
  }
}

=== FILE: markup.dfy ===
/** What the card templates interpolate, and how: every value lands in the markup either
    through `escapeHtml` or verbatim, and every optional section is gated on JavaScript
    truthiness. */
module Markup {
  import opened Wrappers
  import Text

  /** One interpolation site: `Escaped(t)` is `${escapeHtml(t)}`, `Raw(t)` is `${t}`. */
  datatype Html = Escaped(text: string) | Raw(text: string)

  /** The markup an interpolation contributes. `serialize` is the browser's
      `textContent` to `innerHTML` serialisation, which this model leaves opaque. */
  function Render(h: Html, serialize: string -> string): (r: string)
    ensures h.Raw? ==> r == h.text
    ensures h.Escaped? && h.text == "" ==> r == ""
    ensures h.Escaped? && h.text != "" ==> r == serialize(h.text)
  {
    match h
    case Escaped(t) => if t == "" then "" else serialize(t)
    case Raw(t) => t
  }

  /** JavaScript truthiness of an optional string: present and non-empty. */
  predicate Truthy(v: Option<string>) {
    v.Some? && v.value != ""
  }

  /** JavaScript truthiness of an optional number: present and non-zero. */
  predicate TruthyNumber(v: Option<int>) {
    v.Some? && v.value != 0
  }

  /** `v || fallback` for an optional string. */
  function OrElse(v: Option<string>, fallback: string): (r: string)
    ensures Truthy(v) ==> r == v.value
    ensures !Truthy(v) ==> r == fallback
  {
    if Truthy(v) then v.value else fallback
  }

  /** `escapeHtml(v)`: a falsy argument yields the empty string before any serialisation. */
  function EscapeHtml(v: Option<string>): (h: Html)
    ensures h.Escaped?
    ensures Truthy(v) ==> h.text == v.value
  {
    Escaped(OrElse(v, ""))
  }

  /** `${v ? `...${v}...` : ''}`: a section shown only for a truthy value, which it holds
      escaped or verbatim. */
  function WhenTruthy(v: Option<string>, escaped: bool): (h: Option<Html>)
    ensures h.Some? <==> Truthy(v)
    ensures h.Some? ==> h.value.text == v.value && h.value.Escaped? == escaped
  {
    if !Truthy(v) then None else if escaped then Some(Escaped(v.value)) else Some(Raw(v.value))
  }

  /** `escapeHtml` of an absent or empty value renders as "", whatever the browser does. */
  lemma EscapeHtmlFalsy(v: Option<string>, serialize: string -> string)
    requires !Truthy(v)
    ensures Render(EscapeHtml(v), serialize) == ""
  {
  }

  /** `${v}` for a string field: a missing key prints as "undefined", a JSON `null` as
      "null". */
  function TemplateText(v: Field<string>): (r: string)
    ensures v.Present? ==> r == v.value
    ensures v.Missing? ==> r == "undefined"
    ensures v.Null? ==> r == "null"
  {
    match v
    case Present(s) => s
    case Missing => "undefined"
    case Null => "null"
  }

  /** `${n}` for an integer field: a missing key prints as "undefined", a JSON `null` as
      "null", a number as its decimal numeral. */
  function TemplateNumber(v: Field<int>): (r: string)
    ensures v.Present? ==> r == Text.IntToDecimal(v.value)
    ensures v.Missing? ==> r == "undefined"
    ensures v.Null? ==> r == "null"
  {
    match v
    case Present(n) => Text.IntToDecimal(n)
    case Missing => "undefined"
    case Null => "null"
  }

  /** How many skills a skills section shows before the "+N more" tag. */
  const SkillDisplayLimit: nat := 10

  /** A skills section: the header count, the skill tags shown, and the N of a trailing
      "+N more" tag when there is one. */
  datatype SkillsSection = SkillsSection(total: nat, shown: seq<Html>, more: Option<nat>) {

    /** The text of the trailing tag, when there is one. */
    function MoreTag(): (r: Option<string>)
      ensures r.Some? <==> more.Some?
      ensures r.Some? ==> r.value == MoreLabel(more.value)
    {
      if more.Some? then Some(MoreLabel(more.value)) else None
    }
  }

  /** Each string of `xs` as one tag, escaped or verbatim, in order. */
  function Tags(xs: seq<string>, escaped: bool): (tags: seq<Html>)
    ensures |tags| == |xs|
    ensures forall i :: 0 <= i < |xs| ==> tags[i].text == xs[i] && tags[i].Escaped? == escaped
  {
    seq(|xs|, i requires 0 <= i < |xs| => if escaped then Escaped(xs[i]) else Raw(xs[i]))
  }

  /** The capping rule: the header counts every skill, the first `cap` skills are shown in
      source order, and "+N more" appears exactly when skills were left out, with N the number
      left out. */
  ghost predicate ShowsCapped(v: SkillsSection, skills: seq<string>, cap: nat, escaped: bool) {
    && v.total == |skills|
    && |v.shown| == Text.Min(|skills|, cap)
    && (forall i :: 0 <= i < |v.shown| ==> v.shown[i].text == skills[i] && v.shown[i].Escaped? == escaped)
    && (v.more.Some? <==> |skills| > cap)
    && (v.more.Some? ==> v.more.value == |skills| - cap)
  }

  /** Under the capping rule, shown tags plus the "+N more" count account for every skill,
      and the shown tags are never more than the cap. */
  lemma CappedAccountsForAll(v: SkillsSection, skills: seq<string>, cap: nat, escaped: bool)
    requires ShowsCapped(v, skills, cap, escaped)
    ensures |v.shown| + v.more.GetOr(0) == v.total
    ensures |v.shown| <= cap
  {
  }

  /** The label of the synthetic tag: "+N more". */
  function MoreLabel(n: nat): (r: string)
    ensures |r| == |Text.NatToDecimal(n)| + 6
    ensures r[0] == '+'
    ensures r[1..|r| - 5] == Text.NatToDecimal(n)
    ensures r[|r| - 5..] == " more"
  {
    "+" + Text.NatToDecimal(n) + " more"
  }

  /** The count printed in a "+N more" tag reads back as N. */
  lemma MoreLabelReadsBack(n: nat)
    ensures var r := MoreLabel(n); Text.DecimalValue(r[1..|r| - 5]) == n
  {
    Text.DecimalRoundTrip(n);
  }

  /** Under the capping rule the section's trailing tag appears exactly when skills were left
      out, and the number printed in it reads back as how many. */
  lemma MoreTagCountsRest(v: SkillsSection, skills: seq<string>, cap: nat, escaped: bool)
    requires ShowsCapped(v, skills, cap, escaped)
    ensures v.MoreTag().Some? <==> |skills| > cap
    ensures v.MoreTag().Some? ==>
              var r := v.MoreTag().value;
              && r[0] == '+' && r[|r| - 5..] == " more"
              && Text.DecimalValue(r[1..|r| - 5]) == |skills| - cap
  {
    if v.more.Some? {
      MoreLabelReadsBack(v.more.value);
    }
  }
}

=== FILE: resume_matcher.dfy ===
/** The job-description-to-resumes page (resume-matcher.js): the submit guard and the
    projection of the match response into the query summary and the resume cards. */
module ResumeMatcher {
  import opened Wrappers
  import Text
  import opened Markup
  import JobSearch

  // ---------------------------------------------------------------------------------------
  // Submit

  const NoJobDescriptionMessage: string := "Please enter a job description."

  /** `handleFormSubmit`: a job description that is blank after trimming is refused; otherwise
      the trimmed text is what gets searched for. */
  function SubmitResumeSearch(input: string): (r: Result<string, string>)
    ensures r.Failure? <==> Text.AllSpace(input)
    ensures r.Failure? ==> r.error == NoJobDescriptionMessage
    ensures r.Success? ==> r.value == Text.Trim(input) && r.value != ""
  {
    var description := Text.Trim(input);
    Text.TrimEmptyIff(input);
    if description == "" then Failure(NoJobDescriptionMessage) else Success(description)
  }

  // ---------------------------------------------------------------------------------------
  // Records

  datatype Candidate = Candidate(
    name: Option<string>,
    email: Option<string>,
    phone: Option<string>,
    experienceYears: Option<int>,
    summary: Option<string>,
    skills: Option<seq<string>>,
    jobTitles: Option<seq<string>>,
    companies: Option<seq<string>>,
    education: Option<seq<string>>,
    matchExplanation: Option<string>,
    matchScore: Option<int>,
    resumeUrl: Option<string>,
    fileName: Option<string>)

  datatype MatchResponse = MatchResponse(
    candidates: Option<seq<Candidate>>,
    totalFound: Option<int>,
    searchQuery: Option<string>,
    searchTimeMs: Option<int>)

  // ---------------------------------------------------------------------------------------
  // Query summary

  /** The "Results" block: how many resumes matched and how long the search took. */
  datatype ResultsLine = ResultsLine(totalFound: int, searchTimeMs: int)

  datatype QuerySummary = QuerySummary(query: Html, results: Option<ResultsLine>)

  /** `displayJobDescriptionSummary`: the query line shows the API's `search_query` when it is
      given, else the submitted description; the results block appears only for a non-zero
      `total_found`, with a missing search time shown as 0. */
  function DisplayJobDescriptionSummary(data: MatchResponse, jobDescription: string): (v: QuerySummary)
    ensures v.query.Escaped?
    ensures Truthy(data.searchQuery) ==> v.query.text == data.searchQuery.value
    ensures !Truthy(data.searchQuery) ==> v.query.text == jobDescription
    ensures v.results.Some? <==> TruthyNumber(data.totalFound)
    ensures v.results.Some? ==> v.results.value.totalFound == data.totalFound.value
    ensures v.results.Some? && data.searchTimeMs.None? ==> v.results.value.searchTimeMs == 0
    ensures v.results.Some? && data.searchTimeMs.Some? ==> v.results.value.searchTimeMs == data.searchTimeMs.value
  {
    QuerySummary(
      Escaped(OrElse(data.searchQuery, jobDescription)),
      if TruthyNumber(data.totalFound)
      then Some(ResultsLine(data.totalFound.value, data.searchTimeMs.GetOr(0)))
      else None)
  }

  /** When the API echoes no query, the query line shows exactly the trimmed text the user
      submitted, which is never blank. */
  lemma QueryLineShowsSubmittedText(input: string, data: MatchResponse)
    requires !Text.AllSpace(input)
    requires !Truthy(data.searchQuery)
    ensures SubmitResumeSearch(input).Success?
    ensures var q := DisplayJobDescriptionSummary(data, SubmitResumeSearch(input).value).query;
            q.text == Text.Trim(input) && q.text != ""
  {
  }

  // ---------------------------------------------------------------------------------------
  // Resume cards

  const UnknownCandidate: string := "Unknown Candidate"
  const NoExperience: string := "Experience not specified"
  const SummaryLimit: nat := 300

  /** The summary line of a card: the kept prefix, escaped, and whether "..." follows it. The
      ellipsis is appended after escaping, so it is never itself escaped. */
  datatype SummaryLine = SummaryLine(kept: Html, ellipsis: bool) {

    /** The visible text of the line, ellipsis included. */
    function Shown(): string {
      kept.text + (if ellipsis then Text.Ellipsis else "")
    }
  }

  /** `escapeHtml(summary.substring(0, 300)) + (summary.length > 300 ? '...' : '')`. */
  function CardSummary(summary: string): (l: SummaryLine)
    ensures l.kept == Escaped(Text.Truncate(summary, SummaryLimit).kept)
    ensures l.ellipsis == Text.Truncate(summary, SummaryLimit).ellipsis
  {
    var t := Text.Truncate(summary, SummaryLimit);
    SummaryLine(Escaped(t.kept), t.ellipsis)
  }

  /** One resume card. */
  datatype ResumeCard = ResumeCard(
    name: Html,
    email: Option<Html>,
    phone: Option<Html>,
    experience: Html,
    matchScore: int,
    summary: Option<SummaryLine>,
    skills: Option<SkillsSection>,
    jobTitles: Option<Html>,
    companies: Option<Html>,
    education: Option<Html>,
    matchExplanation: Option<Html>,
    resumeLink: Option<Html>,
    contactLink: Option<Html>,
    fileName: Option<Html>)

  /** The experience line: "{n} years experience" for a non-zero number of years. */
  function ExperienceText(years: Option<int>): (r: string)
    ensures !TruthyNumber(years) ==> r == NoExperience
    ensures TruthyNumber(years) ==> r == Text.IntToDecimal(years.value) + " years experience"
  {
    if TruthyNumber(years) then Text.IntToDecimal(years.value) + " years experience" else NoExperience
  }

  /** The skills block of a resume card. The source computes the remainder as
      `skills.length - 10`, possibly negative, and shows "+N more" only when it is positive. */
  function CandidateSkills(skills: Option<seq<string>>): (v: Option<SkillsSection>)
    ensures v.Some? <==> skills.Some? && |skills.value| > 0
    ensures v.Some? ==> ShowsCapped(v.value, skills.value, SkillDisplayLimit, true)
    ensures v.Some? ==>
              v.value.MoreTag() ==
              (if |skills.value| > SkillDisplayLimit then Some(MoreLabel(|skills.value| - SkillDisplayLimit)) else None)
  {
    var display := if skills.Some? then skills.value[..Text.Min(|skills.value|, SkillDisplayLimit)] else [];
    var remaining: int := if skills.Some? then |skills.value| - SkillDisplayLimit else 0;
    if |display| > 0 then
      Some(SkillsSection(|skills.value|, Tags(display, true),
                         if remaining > 0 then Some(remaining as nat) else None))
    else
      None
  }

  /** The resume card and the analysis panel of the job-search page cap skills identically;
      they differ only in whether the tags are escaped. */
  lemma SkillCapsAgree(skills: Option<seq<string>>)
    ensures var c := CandidateSkills(skills);
            var s := JobSearch.SummarySkills(skills);
            && (c.Some? <==> s.Some?)
            && (c.Some? ==> c.value.total == s.value.total && c.value.more == s.value.more)
            && (c.Some? ==> |c.value.shown| == |s.value.shown|
                            && forall i :: 0 <= i < |c.value.shown| ==> c.value.shown[i].text == s.value.shown[i].text)
  {
  }

  /** A list rendered as `list.join(', ')` and shown when that joined text is non-empty (job
      titles, companies). A single empty string therefore hides the section. */
  function JoinedWhenNonEmpty(xs: Option<seq<string>>): (v: Option<Html>)
    ensures v.Some? <==> xs.Some? && (|xs.value| > 1 || (|xs.value| == 1 && xs.value[0] != ""))
    ensures v.Some? ==> v.value == Escaped(Text.Join(xs.value, ", "))
  {
    var list := xs.GetOr([]);
    Text.JoinEmptyIff(list, ", ");
    var joined := if xs.Some? && |list| > 0 then Text.Join(list, ", ") else "";
    if joined != "" then Some(Escaped(joined)) else None
  }

  /** `createResumeCard`. */
  function CreateResumeCard(c: Candidate): (r: ResumeCard)
    ensures r.name == Escaped(OrElse(c.name, UnknownCandidate))
    ensures r.email.Some? <==> Truthy(c.email)
    ensures r.email.Some? ==> r.email.value == Escaped(c.email.value)
    ensures r.phone.Some? <==> Truthy(c.phone)
    ensures r.phone.Some? ==> r.phone.value == Escaped(c.phone.value)
    ensures r.experience == Escaped(ExperienceText(c.experienceYears))
    ensures c.matchScore.None? ==> r.matchScore == 0
    ensures c.matchScore.Some? ==> r.matchScore == c.matchScore.value
    ensures r.summary.Some? <==> Truthy(c.summary)
    ensures r.summary.Some? ==> r.summary.value.kept == Escaped(Text.Truncate(c.summary.value, SummaryLimit).kept)
    ensures r.summary.Some? ==> r.summary.value.ellipsis == Text.Truncate(c.summary.value, SummaryLimit).ellipsis
    ensures r.skills.Some? <==> c.skills.Some? && |c.skills.value| > 0
    ensures r.skills == CandidateSkills(c.skills)
    ensures r.skills.Some? ==> ShowsCapped(r.skills.value, c.skills.value, SkillDisplayLimit, true)
    ensures r.jobTitles == JoinedWhenNonEmpty(c.jobTitles)
    ensures r.companies == JoinedWhenNonEmpty(c.companies)
    ensures r.education.Some? <==> c.education.Some? && |c.education.value| > 0
    ensures r.education.Some? ==> r.education.value == Escaped(Text.Join(c.education.value, ", "))
    ensures r.matchExplanation.Some? <==> Truthy(c.matchExplanation)
    ensures r.matchExplanation.Some? ==> r.matchExplanation.value == Escaped(c.matchExplanation.value)
    ensures r.resumeLink.Some? <==> Truthy(c.resumeUrl)
    ensures r.resumeLink.Some? ==> r.resumeLink.value == Raw(c.resumeUrl.value)
    ensures r.contactLink.Some? <==> Truthy(c.email)
    ensures r.contactLink.Some? ==> r.contactLink.value == Raw("mailto:" + c.email.value)
    ensures r.fileName.Some? <==> Truthy(c.fileName)
    ensures r.fileName.Some? ==> r.fileName.value == Escaped(c.fileName.value)
  {
    ResumeCard(
      Escaped(OrElse(c.name, UnknownCandidate)),
      WhenTruthy(c.email, true),
      WhenTruthy(c.phone, true),
      Escaped(ExperienceText(c.experienceYears)),
      c.matchScore.GetOr(0),
      if Truthy(c.summary) then Some(CardSummary(c.summary.value)) else None,
      CandidateSkills(c.skills),
      JoinedWhenNonEmpty(c.jobTitles),
      JoinedWhenNonEmpty(c.companies),
      if c.education.Some? && |c.education.value| > 0
      then Some(Escaped(Text.Join(c.education.value, ", "))) else None,
      WhenTruthy(c.matchExplanation, true),
      WhenTruthy(c.resumeUrl, false),
      if Truthy(c.email) then Some(Raw("mailto:" + c.email.value)) else None,
      WhenTruthy(c.fileName, true))
  }

  /** The summary on a card is the summary itself when it has at most 300 characters, and
      otherwise its first 300 characters followed by "..."; either way at most 303 characters. */
  lemma CardSummaryIsTruncated(c: Candidate)
    requires Truthy(c.summary)
    ensures var t := CreateResumeCard(c).summary.value.Shown();
            && (|c.summary.value| <= SummaryLimit ==> t == c.summary.value)
            && (|c.summary.value| > SummaryLimit ==> t == c.summary.value[..SummaryLimit] + Text.Ellipsis)
            && |t| <= SummaryLimit + |Text.Ellipsis|
  {
    Text.TruncateText(c.summary.value, SummaryLimit);
  }

  /** The two action links are independent: the resume link depends only on `resume_url`, the
      contact link only on the email. */
  lemma ActionLinksIndependent(c: Candidate, url: Option<string>, email: Option<string>)
    ensures CreateResumeCard(c.(resumeUrl := url)).contactLink == CreateResumeCard(c).contactLink
    ensures CreateResumeCard(c.(email := email)).resumeLink == CreateResumeCard(c).resumeLink
  {
  }

  // ---------------------------------------------------------------------------------------
  // Result list

  datatype ResumesGrid = NoResumes | ResumeCards(cards: seq<ResumeCard>)

  datatype ResumesView = ResumesView(resultsCount: string, grid: ResumesGrid)

  /** `displayResumes`: the count line shows `total_found`, or 0 when it is missing; a missing
      or empty candidate list gives the "No matching resumes found" panel, otherwise one card
      per candidate in the order received. */
  function DisplayResumes(candidates: Option<seq<Candidate>>, totalFound: Option<int>): (v: ResumesView)
    ensures totalFound.None? ==> v.resultsCount == "0 resumes found"
    ensures totalFound.Some? ==> v.resultsCount == Text.IntToDecimal(totalFound.value) + " resumes found"
    ensures v.grid.NoResumes? <==> candidates.None? || |candidates.value| == 0
    ensures v.grid.ResumeCards? ==> |v.grid.cards| == |candidates.value|
    ensures v.grid.ResumeCards? ==> forall i :: 0 <= i < |v.grid.cards| ==>
              v.grid.cards[i] == CreateResumeCard(candidates.value[i])
  {
    var count := Text.IntToDecimal(totalFound.GetOr(0)) + " resumes found";
    if candidates.None? || |candidates.value| == 0 then ResumesView(count, NoResumes)
    else
      var cs := candidates.value;
      ResumesView(count, ResumeCards(seq(|cs|, i requires 0 <= i < |cs| => CreateResumeCard(cs[i]))))
  }

  /** The count line reads back as `total_found`, or 0 when it is missing; the cards do not
      depend on it: there is one per candidate whatever count the API reports. */
  lemma ResumeCountReadsBack(candidates: Option<seq<Candidate>>, totalFound: Option<int>, other: Option<int>)
    ensures var c := DisplayResumes(candidates, totalFound).resultsCount;
            var k := |c| - |" resumes found"|;
            && 0 <= k
            && c[k..] == " resumes found"
            && Text.IsNumeral(c[..k])
            && Text.NumeralValue(c[..k]) == totalFound.GetOr(0)
    ensures DisplayResumes(candidates, totalFound).grid == DisplayResumes(candidates, other).grid
  {
    Text.IntRoundTrip(totalFound.GetOr(0));
    var c := DisplayResumes(candidates, totalFound).resultsCount;
    assert c[..|c| - |" resumes found"|] == Text.IntToDecimal(totalFound.GetOr(0));
  }

  datatype MatchResults = MatchResults(summary: QuerySummary, resumes: ResumesView)

  /** `displayResults`: the query summary and the resume list of one response. The two read
      the same `total_found`: when the summary shows a results block, the count line shows its
      number; when it does not, the count line shows 0. */
  function DisplayResults(data: MatchResponse, jobDescription: string): (r: MatchResults)
    ensures r.summary == DisplayJobDescriptionSummary(data, jobDescription)
    ensures r.resumes == DisplayResumes(data.candidates, data.totalFound)
    ensures r.summary.results.Some? ==>
              r.resumes.resultsCount == Text.IntToDecimal(r.summary.results.value.totalFound) + " resumes found"
    ensures r.summary.results.None? ==> r.resumes.resultsCount == "0 resumes found"
    ensures r.resumes.grid.ResumeCards? ==> |r.resumes.grid.cards| == |data.candidates.value|
  {
    MatchResults(DisplayJobDescriptionSummary(data, jobDescription), DisplayResumes(data.candidates, data.totalFound))
  }
}

=== FILE: text.dfy ===
/** The string operations the page's templates rely on: `String.prototype.trim`,
    `Array.prototype.join`, the 300-character summary cut, `capitalizeFirst`, and the decimal
    rendering of integers inside template literals. */
module Text {

  function Min(a: int, b: int): int {
    if a <= b then a else b
  }

  // ---------------------------------------------------------------------------------------
  // trim

  /** The code points `String.prototype.trim` strips: ECMAScript WhiteSpace (TAB, VT, FF,
      ZWNBSP and every space separator) and LineTerminator (LF, CR, LS, PS). */
  predicate IsSpace(c: char)
    ensures c == ' ' || '\t' <= c <= '\r' ==> IsSpace(c)
    ensures '!' <= c <= '~' ==> !IsSpace(c)
  {
    || c == '\t' || c == '\n' || c == '\U{B}' || c == '\U{C}' || c == '\r' || c == ' '
    || c == '\U{A0}' || c == '\U{1680}' || ('\U{2000}' <= c <= '\U{200A}')
    || c == '\U{2028}' || c == '\U{2029}' || c == '\U{202F}' || c == '\U{205F}'
    || c == '\U{3000}' || c == '\U{FEFF}'
  }

  predicate AllSpace(s: string) {
    forall k :: 0 <= k < |s| ==> IsSpace(s[k])
  }

  /** Where the text of `s` starts: the length of its leading white space. */
  function TextStart(s: string): (i: nat)
    ensures i <= |s|
    ensures forall k :: 0 <= k < i ==> IsSpace(s[k])
    ensures i < |s| ==> !IsSpace(s[i])
    decreases |s|
  {
    if |s| > 0 && IsSpace(s[0]) then 1 + TextStart(s[1..]) else 0
  }

  /** Where the text of `s` ends: scanning back from `e`, the first position not preceded by
      white space, stopping at `lo`. */
  function TextEnd(s: string, lo: nat, e: nat): (j: nat)
    requires lo <= e <= |s|
    ensures lo <= j <= e
    ensures forall k :: j <= k < e ==> IsSpace(s[k])
    ensures j > lo ==> !IsSpace(s[j - 1])
    decreases e
  {
    if e > lo && IsSpace(s[e - 1]) then TextEnd(s, lo, e - 1) else e
  }

  /** `s.trim()`: the part of `s` between its leading and trailing white space. */
  function Trim(s: string): (r: string)
    ensures |r| <= |s|
    ensures r == [] || (!IsSpace(r[0]) && !IsSpace(r[|r| - 1]))
  {
    var i := TextStart(s);
    s[i..TextEnd(s, i, |s|)]
  }

  /** What `trim` removes is white space, from both ends and nowhere else: the result is the
      infix of `s` between its leading and its trailing white space. */
  lemma TrimIsInfix(s: string)
    ensures var i := TextStart(s);
            var j := TextEnd(s, i, |s|);
            && i <= j <= |s|
            && Trim(s) == s[i..j]
            && (forall k :: 0 <= k < i ==> IsSpace(s[k]))
            && (forall k :: j <= k < |s| ==> IsSpace(s[k]))
  {
  }

  /** A string trims to the empty string exactly when every character of it is white space. */
  lemma TrimEmptyIff(s: string)
    ensures Trim(s) == [] <==> AllSpace(s)
  {
  }

  /** Trimming a trimmed string changes nothing. */
  lemma TrimIdempotent(s: string)
    ensures Trim(Trim(s)) == Trim(s)
  {
    var r := Trim(s);
    if r != [] {
      assert TextStart(r) == 0;
      assert TextEnd(r, 0, |r|) == |r|;
    }
  }

  // ---------------------------------------------------------------------------------------
  // join

  /** `xs.join(sep)`: the elements in order with `sep` between neighbours; `[]` joins to "". */
  function Join(xs: seq<string>, sep: string): (r: string)
    ensures |xs| == 0 ==> r == ""
    ensures |xs| == 1 ==> r == xs[0]
    decreases |xs|
  {
    if |xs| == 0 then ""
    else if |xs| == 1 then xs[0]
    else xs[0] + sep + Join(xs[1..], sep)
  }

  /** A join starts with its first element and ends with its last. */
  lemma {:induction false} JoinEnds(xs: seq<string>, sep: string)
    requires |xs| > 0
    ensures xs[0] <= Join(xs, sep)
    ensures |xs[|xs| - 1]| <= |Join(xs, sep)|
    ensures Join(xs, sep)[|Join(xs, sep)| - |xs[|xs| - 1]|..] == xs[|xs| - 1]
    decreases |xs|
  {
    if |xs| > 1 {
      var rest := xs[1..];
      JoinEnds(rest, sep);
      JoinCons(xs, sep);
      assert rest[|rest| - 1] == xs[|xs| - 1];
      SuffixOfAppend(xs[0] + sep, Join(rest, sep), |Join(xs, sep)| - |xs[|xs| - 1]|);
    }
  }

  function TotalLength(xs: seq<string>): nat
    decreases |xs|
  {
    if |xs| == 0 then 0 else |xs[0]| + TotalLength(xs[1..])
  }

  /** The joined string holds every element's characters plus one separator per gap. */
  lemma {:induction false} JoinLength(xs: seq<string>, sep: string)
    requires |xs| > 0
    ensures |Join(xs, sep)| == TotalLength(xs) + (|xs| - 1) * |sep|
    decreases |xs|
  {
    if |xs| > 1 {
      JoinLength(xs[1..], sep);
      var j := Join(xs, sep);
      assert j == xs[0] + sep + Join(xs[1..], sep);
      assert |j| == |xs[0]| + |sep| + |Join(xs[1..], sep)|;
    }
  }

  /** With a non-empty separator, a join is empty exactly when the list is empty or holds one
      empty string. */
  lemma JoinEmptyIff(xs: seq<string>, sep: string)
    requires sep != ""
    ensures Join(xs, sep) == "" <==> |xs| == 0 || (|xs| == 1 && xs[0] == "")
  {
    if |xs| > 1 {
      assert |Join(xs, sep)| >= |sep| > 0;
    }
  }

  /** Where the k-th element starts in a join: after the elements before it and one
      separator for each of them. */
  function JoinOffset(xs: seq<string>, sep: string, k: nat): nat
    requires k <= |xs|
  {
    TotalLength(xs[..k]) + k * |sep|
  }

  /** Past the first element, offsets in a join are those in the join of the rest, shifted by
      the first element and one separator. */
  lemma JoinOffsetStep(xs: seq<string>, sep: string, k: nat)
    requires 0 < k <= |xs|
    ensures JoinOffset(xs, sep, k) == |xs[0]| + |sep| + JoinOffset(xs[1..], sep, k - 1)
  {
    assert xs[..k][1..] == xs[1..][..k - 1];
    assert k * |sep| == (k - 1) * |sep| + |sep|;
  }

  /** A join of two or more elements is the first, the separator, and the join of the rest. */
  lemma JoinCons(xs: seq<string>, sep: string)
    requires |xs| > 1
    ensures Join(xs, sep) == xs[0] + sep + Join(xs[1..], sep)
  {
  }

  /** A suffix lying wholly in the second part of a concatenation is a suffix of that part. */
  lemma SuffixOfAppend(a: string, b: string, i: nat)
    requires |a| <= i <= |a| + |b|
    ensures (a + b)[i..] == b[i - |a|..]
  {
  }

  /** When a string reads `e + sep + rest` from position `o` on, `sep` sits right after `e`. */
  lemma MiddleOfSuffix(s: string, o: nat, e: string, sep: string, rest: string)
    requires o <= |s| && s[o..] == e + sep + rest
    ensures o + |e| + |sep| <= |s| && s[o + |e|..o + |e| + |sep|] == sep
  {
    assert forall i :: 0 <= i < |sep| ==> s[o + |e| + i] == s[o..][|e| + i] == sep[i];
  }

  /** From the offset of its k-th element on, a join is the join of the elements from k on. */
  lemma {:induction false} JoinFrom(xs: seq<string>, sep: string, k: nat)
    requires k < |xs|
    ensures JoinOffset(xs, sep, k) <= |Join(xs, sep)|
    ensures Join(xs, sep)[JoinOffset(xs, sep, k)..] == Join(xs[k..], sep)
    decreases k
  {
    if k == 0 {
      assert xs[..0] == [] && xs[0..] == xs;
    } else {
      var rest := xs[1..];
      JoinFrom(rest, sep, k - 1);
      JoinOffsetStep(xs, sep, k);
      JoinCons(xs, sep);
      assert rest[k - 1..] == xs[k..];
      SuffixOfAppend(xs[0] + sep, Join(rest, sep), JoinOffset(xs, sep, k));
    }
  }

  /** When a string starts with `e` from position `o` on, `e` sits at `o`. */
  lemma PrefixOfSuffix(s: string, o: nat, e: string)
    requires o <= |s| && e <= s[o..]
    ensures o + |e| <= |s| && s[o..o + |e|] == e
  {
    assert forall i :: 0 <= i < |e| ==> s[o + i] == s[o..][i] == e[i];
  }

  /** Every element sits in the join, unchanged, at its offset. */
  lemma JoinElementAt(xs: seq<string>, sep: string, k: nat)
    requires k < |xs|
    ensures var o := JoinOffset(xs, sep, k);
            o + |xs[k]| <= |Join(xs, sep)| && Join(xs, sep)[o..o + |xs[k]|] == xs[k]
  {
    var o := JoinOffset(xs, sep, k);
    assert o <= |Join(xs, sep)| && xs[k] <= Join(xs, sep)[o..] by {
      JoinFrom(xs, sep, k);
      JoinEnds(xs[k..], sep);
      assert xs[k..][0] == xs[k];
    }
    PrefixOfSuffix(Join(xs, sep), o, xs[k]);
  }

  /** Right after every element but the last comes the separator, unchanged. */
  lemma JoinSeparatorAt(xs: seq<string>, sep: string, k: nat)
    requires k + 1 < |xs|
    ensures var o := JoinOffset(xs, sep, k) + |xs[k]|;
            o + |sep| <= |Join(xs, sep)| && Join(xs, sep)[o..o + |sep|] == sep
  {
    var ys := xs[k..];
    var o := JoinOffset(xs, sep, k);
    assert o <= |Join(xs, sep)| && Join(xs, sep)[o..] == xs[k] + sep + Join(ys[1..], sep) by {
      JoinFrom(xs, sep, k);
      JoinCons(ys, sep);
      assert ys[0] == xs[k];
    }
    assert o + |xs[k]| + |sep| <= |Join(xs, sep)| && Join(xs, sep)[o + |xs[k]|..o + |xs[k]| + |sep|] == sep by {
      MiddleOfSuffix(Join(xs, sep), o, xs[k], sep, Join(ys[1..], sep));
    }
  }

  // ---------------------------------------------------------------------------------------
  // truncation

  /** What `escapeHtml(s.substring(0, limit)) + (s.length > limit ? '...' : '')` shows: the
      kept prefix (the part that is escaped) and whether the ellipsis follows. */
  datatype Truncated = Truncated(kept: string, ellipsis: bool) {

    /** The visible text, ellipsis included. */
    function Text(): string {
      kept + (if ellipsis then Ellipsis else "")
    }
  }

  const Ellipsis: string := "..."

  function Truncate(s: string, limit: nat): (t: Truncated)
    ensures t.kept <= s
    ensures |t.kept| == Min(|s|, limit)
    ensures t.ellipsis <==> |s| > limit
  {
    if |s| <= limit then Truncated(s, false) else Truncated(s[..limit], true)
  }

  /** Text within the limit passes through unchanged; longer text becomes its first `limit`
      characters and "...", so the visible text is never longer than `limit` plus the ellipsis. */
  lemma TruncateText(s: string, limit: nat)
    ensures |s| <= limit ==> Truncate(s, limit).Text() == s
    ensures |s| > limit ==> Truncate(s, limit).Text() == s[..limit] + Ellipsis
    ensures |Truncate(s, limit).Text()| <= limit + |Ellipsis|
  {
  }

  /** Truncating the visible result of a truncation again reproduces it. */
  lemma TruncateIdempotent(s: string, limit: nat)
    ensures Truncate(Truncate(s, limit).Text(), limit).Text() == Truncate(s, limit).Text()
  {
    var v := Truncate(s, limit).Text();
    if |s| > limit {
      assert v[..limit] == s[..limit];
    }
  }

  // ---------------------------------------------------------------------------------------
  // capitalizeFirst

  predicate IsAsciiLower(c: char) {
    'a' <= c <= 'z'
  }

  /** `toUpperCase` restricted to ASCII: other characters are left as they are. */
  function ToUpperAscii(c: char): (u: char)
    ensures !IsAsciiLower(u)
    ensures !IsAsciiLower(c) ==> u == c
    ensures IsAsciiLower(c) ==> u as int == c as int - 32
  {
    if IsAsciiLower(c) then (c as int - 32) as char else c
  }

  /** `str.charAt(0).toUpperCase() + str.slice(1)`, and "" for the empty string. */
  function CapitalizeFirst(s: string): (r: string)
    ensures |r| == |s|
    ensures |s| > 0 ==> r[0] == ToUpperAscii(s[0]) && r[1..] == s[1..]
  {
    if |s| == 0 then "" else [ToUpperAscii(s[0])] + s[1..]
  }

  /** Capitalising twice is capitalising once, and a capitalised string never starts with a
      lower-case ASCII letter. */
  lemma CapitalizeFirstIdempotent(s: string)
    ensures CapitalizeFirst(CapitalizeFirst(s)) == CapitalizeFirst(s)
    ensures |s| > 0 ==> !IsAsciiLower(CapitalizeFirst(s)[0])
  {
  }

  // ---------------------------------------------------------------------------------------
  // decimal rendering of integers

  predicate IsDigit(c: char) {
    '0' <= c <= '9'
  }

  function DigitChar(d: nat): (c: char)
    requires d < 10
    ensures IsDigit(c)
  {
    ('0' as int + d) as char
  }

  /** The decimal numeral of `n` as a template literal prints it: digits only, no leading
      zero. */
  function NatToDecimal(n: nat): (r: string)
    ensures |r| >= 1
    ensures forall k :: 0 <= k < |r| ==> IsDigit(r[k])
    ensures r[0] == '0' ==> r == "0"
    decreases n
  {
    if n < 10 then [DigitChar(n)] else NatToDecimal(n / 10) + [DigitChar(n % 10)]
  }

  /** The number a string of decimal digits denotes (an independent reading of a numeral). */
  function DecimalValue(s: string): nat
    requires forall k :: 0 <= k < |s| ==> IsDigit(s[k])
    decreases |s|
  {
    if |s| == 0 then 0
    else
      assert IsDigit(s[|s| - 1]);
      DecimalValue(s[..|s| - 1]) * 10 + (s[|s| - 1] as int - '0' as int)
  }

  /** Reading back the numeral `NatToDecimal` prints gives the number printed. */
  lemma {:induction false} DecimalRoundTrip(n: nat)
    ensures DecimalValue(NatToDecimal(n)) == n
    decreases n
  {
    var r := NatToDecimal(n);
    if n >= 10 {
      DecimalRoundTrip(n / 10);
      assert r[..|r| - 1] == NatToDecimal(n / 10);
    }
  }

  /** A decimal numeral, optionally preceded by a minus sign. */
  predicate IsNumeral(s: string) {
    if |s| > 0 && s[0] == '-' then
      |s| > 1 && forall k :: 1 <= k < |s| ==> IsDigit(s[k])
    else
      |s| > 0 && forall k :: 0 <= k < |s| ==> IsDigit(s[k])
  }

  /** The integer a possibly negative numeral denotes. */
  function NumeralValue(s: string): int
    requires IsNumeral(s)
  {
    if s[0] == '-' then
      assert forall k :: 0 <= k < |s[1..]| ==> IsDigit(s[1..][k]);
      -(DecimalValue(s[1..]) as int)
    else
      DecimalValue(s)
  }

  /** A signed integer as a template literal prints it. */
  function IntToDecimal(i: int): (r: string)
    ensures i >= 0 ==> r == NatToDecimal(i)
    ensures i < 0 ==> |r| >= 2 && r[0] == '-' && r[1..] == NatToDecimal(-i)
  {
    if i < 0 then "-" + NatToDecimal(-i) else NatToDecimal(i)
  }

  /** Reading back the numeral `IntToDecimal` prints gives the integer printed. */
  lemma IntRoundTrip(i: int)
    ensures IsNumeral(IntToDecimal(i)) && NumeralValue(IntToDecimal(i)) == i
  {
    if i < 0 {
      DecimalRoundTrip(-i);
    } else {
      DecimalRoundTrip(i);
    }
  }
}

=== FILE: wrappers.dfy ===
/** Optional values and success/failure results, the two shapes every projection below uses
    for "field absent" and "request refused". */
module Wrappers {

  /** A field of an API record that may be missing (`undefined` or `null`). Used wherever the
      page only tests the field's truthiness, which treats both alike. */
  datatype Option<+T> = None | Some(value: T) {

    /** The value, or `default` when absent. */
    function GetOr(default: T): T {
      match this
      case Some(v) => v
      case None() => default
    }
  }

  /** A field of an API record where `undefined` and `null` print differently: a key the
      response leaves out, a key sent as JSON `null`, or a value. */
  datatype Field<+T> = Missing | Null | Present(value: T)

  /** The outcome of a client-side guard: either the request it lets through, or the error
      message shown in the page's error panel. */
  datatype Result<+R, +E> = Success(value: R) | Failure(error: E)
}
